=== FILE: README.md ===
# platform-common data-access core, modelled in Dafny

This project models the sequential core of the data-access layer of
`github.com/evg555/platform-common`. It has three parts.

- **The transaction manager** (`pkg/db/transaction/transaction.go`).
  - A body already running inside a transaction runs as it is.
  - Otherwise the manager begins a transaction, binds the handle into a derived context and runs the body.
  - It then takes exactly one terminal action: commit after success, rollback after an error or a panic.
  - It wraps the errors of each step with fixed messages.
- **Context binding and statement routing** (`pkg/db/pg/pg.go`).
  - A context is an immutable key/value overlay. `MakeContextTx` binds a handle under `TxKey`.
  - Exec, query and query-row send the raw statement either to the bound transaction or to the pool.
  - Every statement is logged first, with its name and a pretty-printed text.
  - The scan helpers dispatch through the query path.
- **The statement pretty-printer** (`pkg/db/prettier/prettier.go`).
  - For each argument in order, every `<placeholder><i+1>` is replaced textually by the argument's rendering: `%q` for strings and bytes, `%v` otherwise.
  - Tabs are then deleted, newlines become spaces, and surrounding whitespace is trimmed.

Modules:

| file | module | what it holds |
|---|---|---|
| `wrappers.dfy` | `Wrappers` | `Option` and `Result` |
| `db.dfy` | `Db` | The `db.Query` and `db.Committer` shapes, isolation levels, and the `pkg/errors` wrap chain (`Root` is `errors.Cause`). Also `Outcome`, how a body ends: `Ok`, `Err(e)` or `Panic(v)`. |
| `prettier.dfy` | `Prettier` | The `Pretty` method (the argument loop) and the function `Prettified` that specifies it. Also the textual replacement, `%q`/`%v` rendering, ASCII trimming, and the lemmas about them. |
| `pg.dfy` | `Pg` | The context, `TxKey`, `MakeContextTx` and the routing decision `Route`. Also the class `DB`: its `log` field is the process log, and its `calls` field is what was sent to the pool, the transaction or `pgxscan`. |
| `transaction.dfy` | `Transaction` | The specification function `Transacted` and the method `Transaction`. The method reassigns the error step by step, as the source and its deferred closure do, and returns the result with the trace of actions taken. Also `ReadComitted` and the lemmas. |

Inputs the layer cannot see into are parameters:
- `BeginTx`, and `Commit`/`Rollback` on the handle: functions in `Transaction.Manager`.
- The pool or transaction executors and the `pgxscan` mappers: functions in `Pg.Backend`.
- The caller's body: a function from the context to an `Outcome`.

## Model

| member | source | states |
|---|---|---|
| Db.Root | pkg/db/transaction/transaction.go:41-43 | Following the wrap chain always ends at an error that is not a wrap; the result is the error itself exactly when that error is not a wrap. |
| Db.Chain | pkg/db/transaction/transaction.go:41-43 | The unwrapping chain starts at the error itself and ends at its root cause; every element before the last is a wrap whose cause is the next element, and the last is not a wrap. |
| Prettier.Pretty | pkg/db/prettier/prettier.go:18-37 | The loop computes exactly `Prettified`: one replacement pass per argument in order, each on the text the previous pass left, then tab deletion, newline-to-space and trim. The output holds no tab or newline and has no whitespace at either end. |
| Prettier.PlaceholderFor | pkg/db/prettier/prettier.go:30 | The pattern of argument i is the placeholder prefix followed by more text. |
| Prettier.PlaceholderDigits | pkg/db/prettier/prettier.go:30 | The text after the prefix in the pattern of argument i holds decimal digits only, with no leading zero, and they spell i+1: it is the canonical `strconv.Itoa(i+1)`. |
| Prettier.Itoa | pkg/db/prettier/prettier.go:30 | `strconv.Itoa` on a non-negative number gives a non-empty string of decimal digits, with no leading zero unless the number is 0. |
| Prettier.ItoaRoundTrip | pkg/db/prettier/prettier.go:30 | The digits `strconv.Itoa` writes spell the number it was given: `DecValue(Itoa(n)) == n`. |
| Prettier.ItoaInjective | pkg/db/prettier/prettier.go:30 | Different numbers are written as different digit strings. |
| Prettier.IntText | pkg/db/prettier/prettier.go:27 | `%v` of an integer is an optional minus sign (present exactly when the integer is negative) followed by decimal digits that spell the integer back, with no leading zero unless the integer is zero. |
| Prettier.PlaceholdersDistinct | pkg/db/prettier/prettier.go:9-30 | Different argument indices have different placeholders under the same prefix, and a `$` placeholder is never a `?` placeholder. |
| Prettier.TrimLeft | pkg/db/prettier/prettier.go:36 | Leading trimming keeps the input's length or less, removes only whitespace, and leaves text that does not start with whitespace. |
| Prettier.TrimRight | pkg/db/prettier/prettier.go:36 | Trailing trimming removes only whitespace and leaves text that does not end with whitespace. |
| Prettier.TrimLeftSuffix | pkg/db/prettier/prettier.go:36 | What leading trimming leaves is a suffix of the input. |
| Prettier.TrimRightPrefix | pkg/db/prettier/prettier.go:36 | What trailing trimming leaves is a prefix of the input. |
| Prettier.TrimSpace | pkg/db/prettier/prettier.go:36 | The trimmed text is no longer than the input and has no whitespace at either end; it is empty exactly when the input is all whitespace. |
| Prettier.TrimSpaceMiddle | pkg/db/prettier/prettier.go:36 | `strings.TrimSpace` returns a contiguous slice of the input, and everything it drops before and after that slice is whitespace. |
| Prettier.Escape | pkg/db/prettier/prettier.go:21-25 | The escaped body of a `%q` rendering contains no raw tab or newline. |
| Prettier.EscapePlain | pkg/db/prettier/prettier.go:23 | A string with nothing to escape is its own escaped body. |
| Prettier.Quote | pkg/db/prettier/prettier.go:23 | `%q` output starts and ends with a double quote and holds no raw tab or newline, so the later whitespace passes cannot alter it. |
| Prettier.QuotePlain | pkg/db/prettier/prettier.go:22-23 | A string of printable ASCII without `"` or `\` is rendered as itself wrapped in `"…"`. |
| Prettier.BytesToString | pkg/db/prettier/prettier.go:25 | `string(b)` has one character per byte. |
| Prettier.Render | pkg/db/prettier/prettier.go:21-28 | The type switch: a string or byte slice is rendered between double quotes with no raw tab or newline; an integer as canonical signed decimal text (no leading zero) that spells it back; any other value as its given `%v` text. |
| Prettier.Without | pkg/db/prettier/prettier.go:33 | The reference meaning of deleting a character: it is absent from the result, and every other character is kept with its multiplicity. |
| Prettier.TabsDeleted | pkg/db/prettier/prettier.go:33 | Replacing `"\t"` with `""` is exactly `Without(s, '\t')`: tabs are deleted, not turned into spaces. |
| Prettier.NewlinesToSpaces | pkg/db/prettier/prettier.go:34 | Replacing `"\n"` with `" "` keeps the length, and maps each newline to exactly one space and every other character to itself. Runs are not collapsed. |
| Prettier.ReplaceAll | pkg/db/prettier/prettier.go:30-34 | `strings.Replace(…, -1)` leaves text in which the pattern does not occur unchanged, and every character of the result comes from the input or from the replacement. |
| Prettier.ReplaceFirst | pkg/db/prettier/prettier.go:30-34 | Replacement works left to right on non-overlapping occurrences: text before the first occurrence of the pattern is kept, that occurrence becomes the replacement, and the rest of the text is processed the same way. |
| Prettier.ReplaceSkip | pkg/db/prettier/prettier.go:30 | Replacement scans left to right: a prefix that cannot start an occurrence is copied unchanged. |
| Prettier.FlattenShape | pkg/db/prettier/prettier.go:33-36 | After the three final reassignments the text has no tab, no newline and no whitespace at either end. |
| Prettier.FlatUntouched | pkg/db/prettier/prettier.go:33-34 | Text without tabs and newlines is unchanged by the two replacements. |
| Prettier.TrimmedUntouched | pkg/db/prettier/prettier.go:36 | Text without surrounding whitespace is unchanged by the trim. |
| Prettier.NoArgsIdempotent | pkg/db/prettier/prettier.go:18-37 | With no arguments only whitespace normalisation applies, and `Pretty(Pretty(q, p), p) == Pretty(q, p)`. |
| Prettier.SubstitutedSettles | pkg/db/prettier/prettier.go:19-31 | Once the placeholder prefix no longer occurs in the rewritten text, the remaining argument passes change nothing. |
| Prettier.ArgsIgnoredWithoutPlaceholder | pkg/db/prettier/prettier.go:30 | If the placeholder prefix never occurs in the query, the output is the same whatever the arguments. |
| Prettier.TeenPlaceholder | pkg/db/prettier/prettier.go:30 | The placeholder of argument 10+j (j a digit) is `$1` followed by the digit j. |
| Prettier.DoubleDigitShadowed | pkg/db/prettier/prettier.go:30 | When the text around `$1d` and the first argument's rendering hold no `$`, the first argument's pass consumes the `$1` of `$1d` (the placeholder of argument 10+d): the output is the normalised text with the first rendering followed by the digit d. |
| Prettier.ShadowedArgumentIgnored | pkg/db/prettier/prettier.go:19-30 | Under the same conditions, changing any argument after the first, the shadowed argument 10+d included, does not change the output. |
| Prettier.TwoPlaceholders | pkg/db/prettier/prettier.go:19-30 | For a query `a$1b$2` with two arguments, where `a`, `b` and the first argument's rendering contain no `$`: the result is the normalised text with each placeholder replaced by its own argument's rendering, in order. |
| Prettier.IntAndQuotedString | pkg/db/prettier/prettier.go:21-36 | For a query `a$1b$2` whose surrounding text is plain and `$`-free, with `a` non-empty and not starting with whitespace: an integer of either sign is rendered by `%v` as its signed decimal text, and a string with nothing to escape between double quotes (`%q`); the surrounding text is kept as written. |
| Prettier.QuotingExample | pkg/db/prettier/prettier.go:18-37 | `SELECT * FROM t WHERE id=$1 AND name=$2` with `(42, "O'Brien")` gives `SELECT * FROM t WHERE id=42 AND name="O'Brien"`. |
| Pg.Context.Value | pkg/db/pg/pg.go:59 | A lookup finds a value exactly when the key is bound, and the value found is the one bound to the key. |
| Pg.MakeContextTx | pkg/db/pg/pg.go:106-109 | The derived context yields the handle under `TxKey`, and every other key keeps its value. |
| Pg.Route | pkg/db/pg/pg.go:59-60 | A statement goes to a transaction exactly when the value under `TxKey` is a handle that is a full `pgx.Tx`, and then to that very handle. |
| Pg.StatementFor | pkg/db/pg/pg.go:59-64 | The driver receives `q.QueryRaw` and the unchanged arguments, never the pretty-printed text. The target is the pool exactly when routing finds no `pgx.Tx`, and a transaction target is the very handle bound under `TxKey`. |
| Pg.DB.constructor | pkg/db/pg/pg.go:27-31 | A new executor has an empty log and has made no calls. |
| Pg.DB.LogQuery | pkg/db/pg/pg.go:111-118 | Appends one entry with the query's name and its `$`-rendered `Pretty` text, and changes nothing else. |
| Pg.DB.ExecContext | pkg/db/pg/pg.go:56-65 | Logs once, then sends one `Exec` of the routed raw statement and returns the executor's answer. |
| Pg.DB.QueryContext | pkg/db/pg/pg.go:68-77 | Logs once, then sends one `Query` of the routed raw statement and returns the executor's answer. |
| Pg.DB.QueryRawContext | pkg/db/pg/pg.go:80-89 | Logs once, then sends one `QueryRow` of the routed raw statement and returns the row. |
| Pg.DB.ScanOneContext | pkg/db/pg/pg.go:34-43 | Logs the query twice. A failed query's error is returned unchanged and nothing is scanned; otherwise the rows are scanned once and the scan's result is returned. |
| Pg.DB.ScanAllContext | pkg/db/pg/pg.go:46-53 | Logs the query once. A failed query's error is returned unchanged and nothing is scanned; otherwise the rows are scanned once and the scan's result is returned. |
| Pg.BindingIsolated | pkg/db/pg/pg.go:107-109 | Binding adds exactly `TxKey` to the key set, yields the handle, and leaves every other lookup as it was in the parent. |
| Pg.RoutingRule | pkg/db/pg/pg.go:59-64 | A context that binds a `pgx.Tx` routes to it. One that binds another kind of handle, or nothing, routes to the pool. |
| Pg.RoutingInherited | pkg/db/pg/pg.go:59 | Binding any other key in a derived context does not change where its statements go. |
| Pg.LoggedShape | pkg/db/pg/pg.go:111-117 | A log entry carries `q.Name` and the query rendered with the `$` placeholder, which has no tab or newline. |
| Transaction.Transaction | pkg/db/transaction/transaction.go:22-61 | The step-by-step error updates, including those of the deferred closure, give exactly the result and the action trace of `Transacted`. |
| Transaction.ReadComitted | pkg/db/transaction/transaction.go:64-67 | Delegates with isolation level read committed; when a transaction is begun, it is begun with that level. |
| Transaction.NestedRunsAsIs | pkg/db/transaction/transaction.go:23-26 | When a handle is already bound, the body runs once with the same context and its outcome, even a panic, is returned unwrapped. No begin, commit or rollback is issued. |
| Transaction.BeginFailure | pkg/db/transaction/transaction.go:28-31 | A failed begin: the body is never invoked, there is no commit and no rollback, and the result is the begin error wrapped with "can't begin transaction", whose cause is that error. |
| Transaction.BodySeesHandle | pkg/db/transaction/transaction.go:33-56 | After a successful begin the body runs once, with a derived context whose `TxKey` yields the new handle and whose other keys are the caller's. |
| Transaction.BodyError | pkg/db/transaction/transaction.go:40-57 | A body error: the trace is begin, body, one rollback, and no commit. The result is the body error wrapped with "failed to execute code inside transaction"; when rollback fails, that is wrapped again with the rollback error as detail. The body error stays in the chain, and its root cause stays the root cause of the result. |
| Transaction.PanicRecovered | pkg/db/transaction/transaction.go:35-46 | A panicking body: the panic becomes a "panic recovered" error, rolled back once and never committed, and the panic does not escape. |
| Transaction.SuccessCommits | pkg/db/transaction/transaction.go:48-53 | A successful body: the trace is begin, body, one commit, and no rollback. The result is nil, or the commit error wrapped with "tx commit failed". |
| Transaction.OneTerminalAction | pkg/db/transaction/transaction.go:22-61 | On every input: at most one begin, none when nested. Exactly one commit-or-rollback once begun, none otherwise. A commit exactly when the begin succeeded and the body returned nil. A panic escapes only from a nested run. |
| Transaction.InTransaction | pkg/db/transaction/transaction.go:23 | The manager's nesting test holds exactly when the value under `TxKey` is a handle of any kind, and it holds whenever the router would send statements to a transaction. |
| Transaction.Nesting | pkg/db/transaction/transaction.go:23-26 | A transaction run inside another's body joins it: the inner run on the bound context only runs the body (its trace is that single step, so no nested begin), and the pair behaves as the outer transaction over the inner body, at the outer isolation level. |
| Transaction.CommitterNotRouted | pkg/db/transaction/transaction.go:23 | A bound handle that is a `db.Committer` but not a `pgx.Tx` counts as "in a transaction" for the manager, yet its statements are routed to the pool. |
| Transaction.RoutedIsInTransaction | pkg/db/pg/pg.go:59 | Whatever the router sends to a transaction, the manager sees as one. The two tests differ only on handles that are not a full `pgx.Tx`. |
| Transaction.BodyStatementsRouted | pkg/db/transaction/transaction.go:33-56 | Inside a begun transaction over a `pgx.Tx`, every statement the body issues goes to that transaction, as raw text with unchanged arguments. |

## Left out

- `pkg/closer/closer.go` is not part of this model. It is concurrent shutdown (goroutines, `sync.Once`, a mutex, a channel, OS signals).
- `pkg/db/pg/client.go` is not part of this model. It is network I/O (`pgxpool.Connect`) and a close wrapper.
- `Ping`, `Close` and `BeginTx` of `pg` are pass-throughs to the pool. The pool itself, the `pgx` executors and `pgxscan`'s row mapping and cardinality errors are opaque functions in `Pg.Backend`. The scan destination is not modelled.
- Context cancellation and deadlines are not modelled. The context is only a key/value overlay.
- The `log.Println` line formatting, including the printed context, is not modelled. Logging is an entry sequence kept in the `DB` object rather than a process-wide logger.
- The message texts produced by `pkg/errors` are not modelled. Wraps keep only their tags, with the wrapped errors as values.
- Prettier.Escape: escapes only `"`, `\`, newline, tab and carriage return. Go's `%q` also escapes other control characters and non-printable or invalid UTF-8 runes, which are not modelled.
- Prettier.BytesToString: maps each byte to one character and does not decode UTF-8.
- Prettier.Render: `%v` is modelled for integers. Every other non-string argument carries its `%v` text as given (`Other`), so the formatting of floats, times, structs and nil is not modelled.
- Prettier.TrimSpace: trims ASCII whitespace only, not the other Unicode spaces that `strings.TrimSpace` removes.
- Transaction.Transaction: assumes `BeginTx` never returns a nil handle with a nil error. It does not model `panic(nil)`, which `recover` reports as nil in older Go versions, or a panic raised by `Commit` or `Rollback` themselves.
- Transaction.Manager: the answers of `BeginTx`, `Commit` and `Rollback` are fixed functions of their inputs, so two runs with the same options see the same answer.

=== FILE: db.dfy ===
/**
 * The shapes of pkg/db/db.go that the rest of the model shares: a named
 * query, a transaction handle (a `db.Committer`), the errors that the data
 * access layer produces and wraps, and the outcome of a caller's body.
 */
module Db {

  /** `db.Query`: a human-readable name and the raw statement text. */
  datatype Query = Query(name: string, queryRaw: string)

  /**
   * A begun transaction, seen through the `db.Committer` interface. `id`
   * tells handles apart; `isPgxTx` says whether the handle's dynamic type
   * also implements the driver's full `pgx.Tx` interface (the pool's own
   * `BeginTx` always hands out such a handle, a test double need not).
   */
  datatype Handle = Handle(id: nat, isPgxTx: bool)

  /** Isolation levels that `pgx.TxOptions` can carry. */
  datatype IsoLevel = Serializable | RepeatableRead | ReadCommitted | ReadUncommitted

  /** `pgx.TxOptions`, reduced to its isolation level. */
  datatype TxOptions = TxOptions(isoLevel: IsoLevel)

  /**
   * The chain of errors built with the `github.com/pkg/errors` package.
   * Messages are kept as tags; their rendered text is not modelled.
   */
  datatype Error =
      /** An error produced outside this layer: by the driver, a handle or the caller's body. */
    | Raw(id: nat)
      /** `errors.Wrap(cause, msg)`: a message in front of a cause that stays reachable. */
    | Wrap(msg: string, cause: Error)
      /** `errors.Wrapf(cause, msg + ": %v", detail)`: a message that formats a second error. */
    | WrapWith(msg: string, detail: Error, cause: Error)
      /** `errors.Errorf(msg + ": %v", v)`: a fresh error that formats a recovered panic value. */
    | Recovered(msg: string, panicValue: string)

  /** `errors.Cause`: follows the wrap chain down to the error that started it. */
  function Root(e: Error): (r: Error)
    ensures !r.Wrap? && !r.WrapWith?
    ensures r == e <==> !e.Wrap? && !e.WrapWith?
  {
    match e
    case Wrap(_, c) => Root(c)
    case WrapWith(_, _, c) => Root(c)
    case _ => e
  }

  /** The wrap chain, outermost first, as tooling that unwraps step by step sees it. */
  function Chain(e: Error): (r: seq<Error>)
    ensures |r| > 0 && r[0] == e && r[|r| - 1] == Root(e)
    ensures forall k :: 0 <= k < |r| - 1 ==> (r[k].Wrap? || r[k].WrapWith?) && r[k].cause == r[k + 1]
    ensures !r[|r| - 1].Wrap? && !r[|r| - 1].WrapWith?
  {
    match e
    case Wrap(_, c) => [e] + Chain(c)
    case WrapWith(_, _, c) => [e] + Chain(c)
    case _ => [e]
  }

  /** How a `db.Handler` body ends: a nil error, a non-nil error, or a panic with a value. */
  datatype Outcome = Ok | Err(error: Error) | Panic(value: string)
}

=== FILE: pg.dfy ===
/**
 * pkg/db/pg/pg.go: the execution context that carries a transaction handle,
 * the routing of each statement to that transaction or to the pool, and the
 * facade (exec, query, query-row, scan-one, scan-all) that logs every
 * statement before dispatching it.
 */
module Pg {
  import opened Wrappers
  import opened Db
  import Prettier

  /**
   * Context keys. `TxKey` belongs to an unexported key type, so no other
   * package can build a key equal to it, even one spelled "tx".
   */
  datatype Key = TxKey | Foreign(name: string)

  /** A value stored in a context: a transaction handle or anything else. */
  datatype Entry = Committer(h: Handle) | Opaque(text: string)

  /**
   * `context.Context` as an immutable overlay of request-scoped values: a
   * derived context sees every value of its parent unless it overrides it.
   */
  datatype Context = Context(values: map<Key, Entry>) {

    /** `ctx.Value(k)`: the value bound to `k`, or nil. */
    function Value(k: Key): (r: Option<Entry>)
      ensures r.Some? <==> k in values
      ensures k in values ==> r == Some(values[k])
    {
      if k in values then Some(values[k]) else None
    }
  }

  /** `context.WithValue(ctx, TxKey, tx)`: a new context that binds the handle and keeps everything else. */
  function MakeContextTx(ctx: Context, tx: Handle): (r: Context)
    ensures r.Value(TxKey) == Some(Committer(tx))
    ensures forall k :: k != TxKey ==> r.Value(k) == ctx.Value(k)
  {
    Context(ctx.values[TxKey := Committer(tx)])
  }

  /** Where a statement runs: on a bound transaction or on the pool. */
  datatype Target = Tx(h: Handle) | Pool

  /**
   * `ctx.Value(TxKey).(pgx.Tx)`: routing succeeds only when the stored
   * value is a handle whose dynamic type is a full `pgx.Tx`.
   */
  function Route(ctx: Context): (t: Target)
    ensures t.Tx? <==> (ctx.Value(TxKey).Some? && ctx.Value(TxKey).value.Committer? && ctx.Value(TxKey).value.h.isPgxTx)
    ensures t.Tx? ==> ctx.Value(TxKey) == Some(Committer(t.h))
  {
    match ctx.Value(TxKey)
    case Some(Committer(h)) => if h.isPgxTx then Tx(h) else Pool
    case _ => Pool
  }

  /** What the driver receives: the target, the raw statement text and the unchanged arguments. */
  datatype Statement = Statement(target: Target, sql: string, args: seq<Prettier.Arg>)

  /** The statement a query with these arguments becomes under this context. */
  function StatementFor(ctx: Context, q: Query, args: seq<Prettier.Arg>): (s: Statement)
    ensures s.sql == q.queryRaw && s.args == args
    ensures s.target == Pool <==> Route(ctx) == Pool
    ensures s.target.Tx? ==> ctx.Value(TxKey) == Some(Committer(s.target.h)) && s.target.h.isPgxTx
  {
    Statement(Route(ctx), q.queryRaw, args)
  }

  /** `pgconn.CommandTag`, the driver's summary of an executed statement. */
  type CommandTag = string

  /** An opaque row cursor (`pgx.Rows`) or single row (`pgx.Row`), told apart by an identifier. */
  type Rows = nat

  /** A call made to a collaborator, in the order made. */
  datatype Call =
    | Exec(s: Statement)
    | QueryRows(s: Statement)
    | QueryRow(s: Statement)
    | ScanOne(rows: Rows)
    | ScanAll(rows: Rows)

  /**
   * The collaborators this layer dispatches to and cannot see into: the pool
   * or transaction executing a statement, and `pgxscan` mapping rows.
   */
  datatype Backend = Backend(
    exec: Statement -> Result<CommandTag, Error>,
    query: Statement -> Result<Rows, Error>,
    queryRow: Statement -> Rows,
    scanOne: Rows -> Option<Error>,
    scanAll: Rows -> Option<Error>)

  /** One line of the diagnostic log: the query's name and its `$`-rendered text. */
  datatype LogEntry = LogEntry(name: string, query: string)

  /** The log line for a query and its arguments. */
  function Logged(q: Query, args: seq<Prettier.Arg>): LogEntry
  {
    LogEntry(q.name, Prettier.Prettified(q.queryRaw, Prettier.PlaceHolderDollar, args))
  }

  /**
   * The `pg` executor. `log` is what has been written to the process log,
   * oldest first; `calls` is what has been sent to the collaborators.
   */
  class DB {
    const backend: Backend
    var log: seq<LogEntry>
    var calls: seq<Call>

    /** `NewDB`: a fresh executor over the given pool. */
    constructor (backend: Backend)
      ensures this.backend == backend && log == [] && calls == []
    {
      this.backend := backend;
      log := [];
      calls := [];
    }

    /** `logQuery`: appends the query's name and its pretty-printed text to the log. */
    method LogQuery(q: Query, args: seq<Prettier.Arg>)
      modifies this`log
      ensures log == old(log) + [Logged(q, args)]
    {
      var pretty := Prettier.Pretty(q.queryRaw, Prettier.PlaceHolderDollar, args);
      log := log + [LogEntry(q.name, pretty)];
    }

    /** `ExecContext`: logs, then executes the raw text on the bound transaction or the pool. */
    method ExecContext(ctx: Context, q: Query, args: seq<Prettier.Arg>) returns (r: Result<CommandTag, Error>)
      modifies this`log, this`calls
      ensures log == old(log) + [Logged(q, args)]
      ensures calls == old(calls) + [Exec(StatementFor(ctx, q, args))]
      ensures r == backend.exec(StatementFor(ctx, q, args))
    {
      LogQuery(q, args);
      var s := Statement(Route(ctx), q.queryRaw, args);
      calls := calls + [Exec(s)];
      r := backend.exec(s);
    }

    /** `QueryContext`: logs, then queries on the bound transaction or the pool. */
    method QueryContext(ctx: Context, q: Query, args: seq<Prettier.Arg>) returns (r: Result<Rows, Error>)
      modifies this`log, this`calls
      ensures log == old(log) + [Logged(q, args)]
      ensures calls == old(calls) + [QueryRows(StatementFor(ctx, q, args))]
      ensures r == backend.query(StatementFor(ctx, q, args))
    {
      LogQuery(q, args);
      var s := Statement(Route(ctx), q.queryRaw, args);
      calls := calls + [QueryRows(s)];
      r := backend.query(s);
    }

    /** `QueryRawContext`: logs, then asks for a single row on the bound transaction or the pool. */
    method QueryRawContext(ctx: Context, q: Query, args: seq<Prettier.Arg>) returns (r: Rows)
      modifies this`log, this`calls
      ensures log == old(log) + [Logged(q, args)]
      ensures calls == old(calls) + [QueryRow(StatementFor(ctx, q, args))]
      ensures r == backend.queryRow(StatementFor(ctx, q, args))
    {
      LogQuery(q, args);
      var s := Statement(Route(ctx), q.queryRaw, args);
      calls := calls + [QueryRow(s)];
      r := backend.queryRow(s);
    }

    /**
     * `ScanOneContext`: logs once itself and once more inside QueryContext;
     * a failed query is returned as it is and nothing is scanned.
     */
    method ScanOneContext(ctx: Context, q: Query, args: seq<Prettier.Arg>) returns (err: Option<Error>)
      modifies this`log, this`calls
      ensures log == old(log) + [Logged(q, args), Logged(q, args)]
      ensures var s := StatementFor(ctx, q, args);
        match backend.query(s)
        case Failure(e) => err == Some(e) && calls == old(calls) + [QueryRows(s)]
        case Success(rows) => err == backend.scanOne(rows) && calls == old(calls) + [QueryRows(s), ScanOne(rows)]
    {
      LogQuery(q, args);
      var rows := QueryContext(ctx, q, args);
      if rows.Failure? {
        return Some(rows.error);
      }
      calls := calls + [ScanOne(rows.value)];
      err := backend.scanOne(rows.value);
    }

    /**
     * `ScanAllContext`: logs only inside QueryContext; a failed query is
     * returned as it is and nothing is scanned.
     */
    method ScanAllContext(ctx: Context, q: Query, args: seq<Prettier.Arg>) returns (err: Option<Error>)
      modifies this`log, this`calls
      ensures log == old(log) + [Logged(q, args)]
      ensures var s := StatementFor(ctx, q, args);
        match backend.query(s)
        case Failure(e) => err == Some(e) && calls == old(calls) + [QueryRows(s)]
        case Success(rows) => err == backend.scanAll(rows) && calls == old(calls) + [QueryRows(s), ScanAll(rows)]
    {
      var rows := QueryContext(ctx, q, args);
      if rows.Failure? {
        return Some(rows.error);
      }
      calls := calls + [ScanAll(rows.value)];
      err := backend.scanAll(rows.value);
    }
  }

  // ---------------------------------------------------------------------------
  // Properties
  // ---------------------------------------------------------------------------

  /** Binding does not change the context it derives from, and a later lookup finds the handle. */
  lemma BindingIsolated(ctx: Context, tx: Handle, k: Key)
    ensures MakeContextTx(ctx, tx).Value(TxKey) == Some(Committer(tx))
    ensures k != TxKey ==> MakeContextTx(ctx, tx).Value(k) == ctx.Value(k)
    ensures MakeContextTx(ctx, tx).values.Keys == ctx.values.Keys + {TxKey}
  {
  }

  /** A context that binds a full `pgx.Tx` routes to it; one that binds nothing routes to the pool. */
  lemma RoutingRule(ctx: Context, tx: Handle)
    ensures Route(MakeContextTx(ctx, tx)) == if tx.isPgxTx then Tx(tx) else Pool
    ensures TxKey !in ctx.values ==> Route(ctx) == Pool
  {
  }

  /** A derived context inherits the binding of its parent unless it overrides `TxKey`. */
  lemma RoutingInherited(ctx: Context, k: Key, v: Entry)
    requires k != TxKey
    ensures Route(Context(ctx.values[k := v])) == Route(ctx)
  {
  }

  /** The log line carries the query's name and its text rendered with the `$` placeholder. */
  lemma LoggedShape(q: Query, args: seq<Prettier.Arg>)
    ensures Logged(q, args).name == q.name
    ensures Logged(q, args).query == Prettier.Prettified(q.queryRaw, Prettier.PlaceHolderDollar, args)
    ensures '\t' !in Logged(q, args).query && '\n' !in Logged(q, args).query
  {
    Prettier.FlattenShape(Prettier.Substituted(q.queryRaw, "$", args, |args|));
  }
}

=== FILE: prettier.dfy ===
/**
 * pkg/db/prettier/prettier.go: renders a statement for the diagnostic log by
 * substituting each positional placeholder with a printable form of its
 * argument, then flattening tabs and newlines and trimming the ends.
 */
module Prettier {

  /** Placeholder prefix used by PostgreSQL (`$1`, `$2`, ...). */
  const PlaceHolderDollar: string := "$"

  /** Placeholder prefix used by MySQL (`?1`, `?2`, ...). */
  const PlaceHolderQuestion: string := "?"

  /**
   * An argument passed as `any`: a string, a byte slice, an integer, or any
   * other value, which carries the text that `%v` prints for it.
   */
  datatype Arg = Str(s: string) | Bytes(b: seq<bv8>) | Int(i: int) | Other(shown: string)

  // ---------------------------------------------------------------------------
  // strings.Replace / strings.ReplaceAll, strconv.Itoa, strings.TrimSpace
  // ---------------------------------------------------------------------------

  /** True when `pat` occurs in `s` as a contiguous piece (the empty pattern occurs everywhere). */
  predicate Occurs(pat: string, s: string)
    decreases |s|
  {
    if |s| < |pat| then false
    else s[..|pat|] == pat || Occurs(pat, s[1..])
  }

  /**
   * `strings.Replace(s, pat, rep, -1)` for a non-empty pattern: scans from the
   * left and replaces every non-overlapping occurrence.
   */
  function ReplaceAll(s: string, pat: string, rep: string): (r: string)
    requires |pat| > 0
    ensures !Occurs(pat, s) ==> r == s
    ensures forall c :: c in r ==> c in s || c in rep
    decreases |s|
  {
    if |s| < |pat| then s
    else if s[..|pat|] == pat then rep + ReplaceAll(s[|pat|..], pat, rep)
    else [s[0]] + ReplaceAll(s[1..], pat, rep)
  }

  /** The decimal digit for 0 <= d < 10. */
  function Digit(d: nat): char
    requires d < 10
  {
    (('0' as int) + d) as char
  }

  /** The number a string of decimal digits spells, most significant digit first. */
  function DecValue(s: string): nat
    requires forall k :: 0 <= k < |s| ==> '0' <= s[k] <= '9'
  {
    if s == [] then 0 else 10 * DecValue(s[..|s| - 1]) + ((s[|s| - 1] as int) - ('0' as int))
  }

  /** `strconv.Itoa` on a non-negative number: decimal digits, no sign, no leading zero. */
  function Itoa(n: nat): (r: string)
    ensures |r| > 0 && forall k :: 0 <= k < |r| ==> '0' <= r[k] <= '9'
    ensures r[0] == '0' ==> n == 0
  {
    if n < 10 then [Digit(n)] else Itoa(n / 10) + [Digit(n % 10)]
  }

  /** The digits `strconv.Itoa` writes spell the number it was given. */
  lemma {:induction false} ItoaRoundTrip(n: nat)
    ensures DecValue(Itoa(n)) == n
  {
    var r := Itoa(n);
    if n >= 10 {
      ItoaRoundTrip(n / 10);
      assert r[..|r| - 1] == Itoa(n / 10);
    }
  }

  /** `strconv.Itoa` is injective: different numbers are written differently. */
  lemma ItoaInjective(i: nat, j: nat)
    ensures Itoa(i) == Itoa(j) ==> i == j
  {
    ItoaRoundTrip(i);
    ItoaRoundTrip(j);
  }

  /** Text that `%v` writes for an integer: an optional leading minus sign, then at least one decimal digit. */
  predicate IsIntText(s: string)
  {
    s != [] && (s[0] == '-' ==> |s| > 1) &&
    forall k :: 0 <= k < |s| ==> (k == 0 && s[k] == '-') || '0' <= s[k] <= '9'
  }

  /** The integer that such text spells. */
  function SignedValue(s: string): int
    requires IsIntText(s)
  {
    if s[0] == '-' then -(DecValue(s[1..]) as int) else DecValue(s)
  }

  /** `%v` of an integer: an optional minus sign, then decimal digits. */
  function IntText(i: int): (r: string)
    ensures IsIntText(r) && SignedValue(r) == i
    ensures r[0] == '-' <==> i < 0
    ensures (if i < 0 then r[1] else r[0]) == '0' ==> i == 0
  {
    if i < 0 then
      var d := Itoa(-i);
      ItoaRoundTrip(-i);
      assert ("-" + d)[1..] == d;
      "-" + d
    else
      ItoaRoundTrip(i);
      Itoa(i)
  }

  /** The ASCII whitespace that `strings.TrimSpace` removes. */
  predicate IsSpace(c: char)
  {
    c == ' ' || c == '\t' || c == '\n' || c == '\r' || c == '\U{000B}' || c == '\U{000C}'
  }

  /** Drops the leading whitespace: what is left is a suffix of `s` that does not start with a space. */
  function TrimLeft(s: string): (r: string)
    ensures |r| <= |s|
    ensures r == [] || !IsSpace(r[0])
    ensures forall k :: 0 <= k < |s| - |r| ==> IsSpace(s[k])
  {
    if s == [] || !IsSpace(s[0]) then s else TrimLeft(s[1..])
  }

  /** Drops the trailing whitespace: what is left is a prefix of `s` that does not end with a space. */
  function TrimRight(s: string): (r: string)
    ensures |r| <= |s|
    ensures r == [] || !IsSpace(r[|r| - 1])
    ensures forall k :: |r| <= k < |s| ==> IsSpace(s[k])
  {
    if s == [] || !IsSpace(s[|s| - 1]) then s else TrimRight(s[..|s| - 1])
  }

  /** Left trimming keeps a suffix of its input. */
  lemma {:induction false} TrimLeftSuffix(s: string)
    ensures TrimLeft(s) == s[|s| - |TrimLeft(s)|..]
    decreases |s|
  {
    if s != [] && IsSpace(s[0]) {
      TrimLeftSuffix(s[1..]);
    }
  }

  /** Right trimming keeps a prefix of its input. */
  lemma {:induction false} TrimRightPrefix(s: string)
    ensures TrimRight(s) == s[..|TrimRight(s)|]
    decreases |s|
  {
    if s != [] && IsSpace(s[|s| - 1]) {
      TrimRightPrefix(s[..|s| - 1]);
    }
  }

  /** `strings.TrimSpace`, restricted to ASCII whitespace. */
  function TrimSpace(s: string): (r: string)
    ensures |r| <= |s|
    ensures r == [] || (!IsSpace(r[0]) && !IsSpace(r[|r| - 1]))
    ensures r == [] <==> forall k :: 0 <= k < |s| ==> IsSpace(s[k])
  {
    var l := TrimLeft(s);
    TrimLeftSuffix(s);
    TrimRightPrefix(l);
    assert l != [] ==> l[0] == s[|s| - |l|];
    TrimRight(l)
  }

  /**
   * `strings.TrimSpace` keeps the middle of its input: the result is the
   * piece of `s` that starts after the leading whitespace, and everything
   * outside that piece is whitespace.
   */
  lemma TrimSpaceMiddle(s: string)
    ensures var i, r := |s| - |TrimLeft(s)|, TrimSpace(s);
      i + |r| <= |s| && r == s[i..i + |r|] &&
      (forall k :: 0 <= k < i ==> IsSpace(s[k])) &&
      (forall k :: i + |r| <= k < |s| ==> IsSpace(s[k]))
  {
    var l := TrimLeft(s);
    TrimLeftSuffix(s);
    TrimRightPrefix(l);
    var r := TrimRight(l);
    assert TrimSpace(s) == r;
    PieceOfSuffix(s, |s| - |l|, l, r);
  }

  /** A prefix of a suffix of `s` is a piece of `s`, and what the prefix leaves out is the end of `s`. */
  lemma PieceOfSuffix(s: string, i: nat, l: string, r: string)
    requires i <= |s| && l == s[i..] && |r| <= |l| && r == l[..|r|]
    requires forall k :: |r| <= k < |l| ==> IsSpace(l[k])
    ensures r == s[i..i + |r|]
    ensures forall k :: i + |r| <= k < |s| ==> IsSpace(s[k])
  {
    forall k | i + |r| <= k < |s|
      ensures IsSpace(s[k])
    {
      assert s[k] == l[k - i];
    }
  }

  // ---------------------------------------------------------------------------
  // %q and %v
  // ---------------------------------------------------------------------------

  /** The body of a `%q` rendering: backslash escapes for `"`, `\`, newline, tab and carriage return. */
  function Escape(s: string): (r: string)
    ensures '\t' !in r && '\n' !in r
  {
    if s == [] then []
    else
      var c := s[0];
      var e := if c == '"' then "\\\"" else if c == '\\' then "\\\\"
               else if c == '\n' then "\\n" else if c == '\t' then "\\t"
               else if c == '\r' then "\\r" else [c];
      e + Escape(s[1..])
  }

  /** Text without quotes, backslashes, newlines, tabs or carriage returns is not changed by escaping. */
  lemma {:induction false} EscapePlain(s: string)
    requires Plain(s)
    ensures Escape(s) == s
  {
    if s != [] {
      EscapePlain(s[1..]);
      assert s == [s[0]] + s[1..];
    }
  }

  /** `%q` of a string: the escaped text wrapped in double quotes, with no raw tab or newline left. */
  function Quote(s: string): (r: string)
    ensures |r| >= 2 && r[0] == '"' && r[|r| - 1] == '"'
    ensures Flat(r)
  {
    var e := Escape(s);
    assert Flat(e) by {
      forall k | 0 <= k < |e| ensures e[k] != '\t' && e[k] != '\n' {
        assert e[k] in e;
      }
    }
    FlatJoin("\"", e);
    FlatJoin("\"" + e, "\"");
    "\"" + e + "\""
  }

  /** `string(b)` for a byte slice, one character per byte. */
  function BytesToString(b: seq<bv8>): (r: string)
    ensures |r| == |b|
  {
    seq(|b|, k requires 0 <= k < |b| => (b[k] as int) as char)
  }

  /** The text that replaces an argument's placeholder: `%q` for strings and bytes, `%v` otherwise. */
  function Render(a: Arg): (r: string)
    ensures (a.Str? || a.Bytes?) ==> |r| >= 2 && r[0] == '"' && r[|r| - 1] == '"' && Flat(r)
    ensures a.Int? ==> IsIntText(r) && SignedValue(r) == a.i && (r[0] == '-' <==> a.i < 0)
    ensures a.Int? ==> ((if a.i < 0 then r[1] else r[0]) == '0' ==> a.i == 0)
    ensures a.Other? ==> r == a.shown
  {
    match a
    case Str(s) => Quote(s)
    case Bytes(b) => Quote(BytesToString(b))
    case Int(i) => IntText(i)
    case Other(shown) => shown
  }

  // ---------------------------------------------------------------------------
  // Pretty
  // ---------------------------------------------------------------------------

  /** The placeholder of the k-th argument (0-based): the prefix followed by k+1 in decimal. */
  function PlaceholderFor(placeholder: string, k: nat): (r: string)
    ensures |r| > |placeholder| && r[..|placeholder|] == placeholder
  {
    placeholder + Itoa(k + 1)
  }

  /** After the prefix, the pattern of argument k holds decimal digits only, and they spell k + 1. */
  lemma PlaceholderDigits(placeholder: string, k: nat)
    ensures var r := PlaceholderFor(placeholder, k);
      (forall m :: |placeholder| <= m < |r| ==> '0' <= r[m] <= '9') &&
      DecValue(r[|placeholder|..]) == k + 1 && r[|placeholder|] != '0'
  {
    ItoaRoundTrip(k + 1);
    assert PlaceholderFor(placeholder, k)[|placeholder|..] == Itoa(k + 1);
    assert PlaceholderFor(placeholder, k)[|placeholder|] == Itoa(k + 1)[0];
  }

  /** The query after the first `n` passes of the argument loop, each on the text the previous one left. */
  function Substituted(query: string, placeholder: string, args: seq<Arg>, n: nat): string
    requires n <= |args|
  {
    if n == 0 then query
    else ReplaceAll(Substituted(query, placeholder, args, n - 1),
                    PlaceholderFor(placeholder, n - 1), Render(args[n - 1]))
  }

  /** Deletes tabs, turns newlines into spaces and trims, in that order. */
  function Flatten(s: string): string
  {
    TrimSpace(ReplaceAll(ReplaceAll(s, "\t", ""), "\n", " "))
  }

  /** What `Pretty` returns. */
  function Prettified(query: string, placeholder: string, args: seq<Arg>): string
  {
    Flatten(Substituted(query, placeholder, args, |args|))
  }

  /** `Pretty`: the argument loop reassigns the query on every pass, then three more reassignments follow. */
  method Pretty(query: string, placeholder: string, args: seq<Arg>) returns (r: string)
    ensures r == Prettified(query, placeholder, args)
    ensures '\t' !in r && '\n' !in r
    ensures r == [] || (!IsSpace(r[0]) && !IsSpace(r[|r| - 1]))
  {
    var q := query;
    for i := 0 to |args|
      invariant q == Substituted(query, placeholder, args, i)
    {
      var value := Render(args[i]);
      q := ReplaceAll(q, PlaceholderFor(placeholder, i), value);
    }
    q := ReplaceAll(q, "\t", "");
    q := ReplaceAll(q, "\n", " ");
    r := TrimSpace(q);
    FlattenShape(Substituted(query, placeholder, args, |args|));
  }

  // ---------------------------------------------------------------------------
  // Properties
  // ---------------------------------------------------------------------------

  /** Removes every `c`; the reference meaning of replacing a one-character pattern by nothing. */
  function Without(s: string, c: char): (r: string)
    ensures c !in r
    ensures multiset(r) == multiset(s)[c := 0]
  {
    if s == [] then []
    else
      assert s == [s[0]] + s[1..];
      (if s[0] == c then [] else [s[0]]) + Without(s[1..], c)
  }

  /** Tabs are deleted, not replaced by a space. */
  lemma {:induction false} TabsDeleted(s: string)
    ensures ReplaceAll(s, "\t", "") == Without(s, '\t')
    decreases |s|
  {
    if s != [] {
      assert s[..1] == [s[0]];
      TabsDeleted(s[1..]);
    }
  }

  /** Each newline becomes exactly one space; every other character stays where it was. */
  lemma {:induction false} NewlinesToSpaces(s: string)
    ensures |ReplaceAll(s, "\n", " ")| == |s|
    ensures forall k :: 0 <= k < |s| ==>
      ReplaceAll(s, "\n", " ")[k] == if s[k] == '\n' then ' ' else s[k]
    decreases |s|
  {
    if s != [] {
      assert s[..1] == [s[0]];
      NewlinesToSpaces(s[1..]);
    }
  }

  /** No tab and no newline anywhere in `s`. */
  predicate Flat(s: string)
  {
    forall k :: 0 <= k < |s| ==> s[k] != '\t' && s[k] != '\n'
  }

  /** The flattened text has no tab or newline and no whitespace at either end. */
  lemma FlattenShape(s: string)
    ensures '\t' !in Flatten(s) && '\n' !in Flatten(s)
    ensures var r := Flatten(s); r == [] || (!IsSpace(r[0]) && !IsSpace(r[|r| - 1]))
  {
    var u := ReplaceAll(ReplaceAll(s, "\t", ""), "\n", " ");
    ReplacedFlat(s);
    TrimKeepsFlat(u);
    assert Flatten(s) == TrimSpace(u);
  }

  /** After the two replacements no tab and no newline is left. */
  lemma ReplacedFlat(s: string)
    ensures Flat(ReplaceAll(ReplaceAll(s, "\t", ""), "\n", " "))
  {
    var t := ReplaceAll(s, "\t", "");
    TabsDeleted(s);
    var u := ReplaceAll(t, "\n", " ");
    NewlinesToSpaces(t);
    forall k | 0 <= k < |u| ensures u[k] != '\t' && u[k] != '\n' {
      assert t[k] != '\t';
    }
  }

  /** Trimming flat text leaves flat text. */
  lemma TrimKeepsFlat(u: string)
    requires Flat(u)
    ensures Flat(TrimSpace(u))
  {
    TrimSpaceMiddle(u);
    var i, r := |u| - |TrimLeft(u)|, TrimSpace(u);
    forall k | 0 <= k < |r| ensures r[k] != '\t' && r[k] != '\n' {
      assert r[k] == u[i + k];
    }
  }

  /** A one-character pattern occurs exactly when the character is present. */
  lemma {:induction false} OccursChar(c: char, s: string)
    ensures Occurs([c], s) <==> c in s
    decreases |s|
  {
    if s != [] {
      OccursChar(c, s[1..]);
      assert s == [s[0]] + s[1..];
    }
  }

  /** Where a longer pattern occurs, each of its prefixes occurs too. */
  lemma {:induction false} OccursExtend(p: string, d: string, s: string)
    requires Occurs(p + d, s)
    ensures Occurs(p, s)
    decreases |s|
  {
    if s[..|p + d|] == p + d {
      assert s[..|p|] == (p + d)[..|p|] == p;
    } else {
      OccursExtend(p, d, s[1..]);
    }
  }

  /** Text that contains no tab and no newline is left alone by the two whitespace replacements. */
  lemma FlatUntouched(s: string)
    requires '\t' !in s && '\n' !in s
    ensures ReplaceAll(ReplaceAll(s, "\t", ""), "\n", " ") == s
  {
    OccursChar('\t', s);
    OccursChar('\n', s);
  }

  /** Text that already has no surrounding whitespace is left alone by the trim. */
  lemma TrimmedUntouched(s: string)
    requires s == [] || (!IsSpace(s[0]) && !IsSpace(s[|s| - 1]))
    ensures TrimSpace(s) == s
  {
  }

  /** With no arguments only the whitespace normalisation applies, and applying it twice changes nothing. */
  lemma {:induction false} NoArgsIdempotent(query: string, placeholder: string)
    ensures Prettified(query, placeholder, []) == Flatten(query)
    ensures Prettified(Prettified(query, placeholder, []), placeholder, []) == Prettified(query, placeholder, [])
  {
    var r := Flatten(query);
    FlattenShape(query);
    FlatUntouched(r);
    TrimmedUntouched(r);
  }

  /** Once the placeholder prefix is gone from the text, the remaining passes change nothing. */
  lemma {:induction false} SubstitutedSettles(query: string, placeholder: string, args: seq<Arg>, k: nat, n: nat)
    requires k <= n <= |args|
    requires !Occurs(placeholder, Substituted(query, placeholder, args, k))
    ensures Substituted(query, placeholder, args, n) == Substituted(query, placeholder, args, k)
    decreases n
  {
    if n > k {
      SubstitutedSettles(query, placeholder, args, k, n - 1);
      SettledStep(query, placeholder, args, k, n);
    }
  }

  /** The inductive step of SubstitutedSettles: one more pass over settled text keeps it. */
  lemma SettledStep(query: string, placeholder: string, args: seq<Arg>, k: nat, n: nat)
    requires k < n <= |args|
    requires !Occurs(placeholder, Substituted(query, placeholder, args, k))
    requires Substituted(query, placeholder, args, n - 1) == Substituted(query, placeholder, args, k)
    ensures Substituted(query, placeholder, args, n) == Substituted(query, placeholder, args, k)
  {
    PassSettled(placeholder, n - 1, Substituted(query, placeholder, args, k), Render(args[n - 1]));
  }

  /** A pass over text that holds no placeholder prefix at all changes nothing. */
  lemma PassSettled(placeholder: string, i: nat, t: string, rep: string)
    requires !Occurs(placeholder, t)
    ensures ReplaceAll(t, PlaceholderFor(placeholder, i), rep) == t
  {
    if Occurs(PlaceholderFor(placeholder, i), t) {
      OccursExtend(placeholder, Itoa(i + 1), t);
    }
  }

  /** If the placeholder prefix never occurs in the query, the arguments do not affect the output. */
  lemma ArgsIgnoredWithoutPlaceholder(query: string, placeholder: string, args: seq<Arg>)
    requires !Occurs(placeholder, query)
    ensures Prettified(query, placeholder, args) == Prettified(query, placeholder, [])
  {
    SubstitutedSettles(query, placeholder, args, 0, |args|);
  }

  /** Replacing skips a prefix that cannot start an occurrence. */
  lemma {:induction false} ReplaceSkip(x: string, y: string, pat: string, rep: string)
    requires |pat| > 0 && pat[0] !in x
    ensures ReplaceAll(x + y, pat, rep) == x + ReplaceAll(y, pat, rep)
    decreases |x|
  {
    if x != [] {
      var s := x + y;
      if |s| < |pat| {
        assert ReplaceAll(y, pat, rep) == y && ReplaceAll(s, pat, rep) == s;
      } else {
        assert x[0] in x;
        assert s[..|pat|] != pat by { assert s[..|pat|][0] == x[0]; }
        assert s[1..] == x[1..] + y;
        assert pat[0] !in x[1..];
        ReplaceSkip(x[1..], y, pat, rep);
        assert [x[0]] + (x[1..] + ReplaceAll(y, pat, rep)) == x + ReplaceAll(y, pat, rep);
      }
    } else {
      assert x + y == y;
    }
  }

  /**
   * Replacement takes the leftmost occurrence: when the pattern does not
   * occur anywhere before its first full occurrence, that occurrence is
   * replaced, the text before it is copied, and scanning resumes after it.
   */
  lemma ReplaceFirst(x: string, y: string, pat: string, rep: string)
    requires |pat| > 0 && !Occurs(pat, x + pat[..|pat| - 1])
    ensures ReplaceAll(x + pat + y, pat, rep) == x + rep + ReplaceAll(y, pat, rep)
  {
    ReplaceFirstIn(x + pat + y, x, y, pat, rep, ReplaceAll(y, pat, rep));
  }

  /** ReplaceFirst by induction on the prefix, with the whole text and the replaced rest given by name. */
  lemma {:induction false} ReplaceFirstIn(s: string, x: string, y: string, pat: string, rep: string, rest: string)
    requires |pat| > 0 && !Occurs(pat, x + pat[..|pat| - 1])
    requires s == x + pat + y && rest == ReplaceAll(y, pat, rep)
    ensures ReplaceAll(s, pat, rep) == x + rep + rest
    decreases |x|
  {
    if x == [] {
      assert s == pat + y;
      ReplaceHere(pat, y, rep);
    } else {
      NoEarlyOccurrence(x, y, pat);
      ReplaceFirstIn(s[1..], x[1..], y, pat, rep, rest);
      ReplaceCopyFront(s, x, pat, rep, rest);
    }
  }

  /** The inductive step of ReplaceFirstIn: a front that starts no occurrence is copied. */
  lemma ReplaceCopyFront(s: string, x: string, pat: string, rep: string, rest: string)
    requires 0 < |pat| <= |s| && x != [] && s[0] == x[0] && s[..|pat|] != pat
    requires ReplaceAll(s[1..], pat, rep) == x[1..] + rep + rest
    ensures ReplaceAll(s, pat, rep) == x + rep + rest
  {
    assert ReplaceAll(s, pat, rep) == [s[0]] + ReplaceAll(s[1..], pat, rep);
    ConsPieces(x, rep, rest);
  }

  /**
   * Putting the first character back in front of three joined pieces. Kept
   * apart from ReplaceCopyFront: proved beside ReplaceAll terms, this
   * sequence equality exhausts the verifier's resource limit.
   */
  lemma ConsPieces(x: string, y: string, z: string)
    requires x != []
    ensures [x[0]] + (x[1..] + y + z) == x + y + z
  {
    assert x == [x[0]] + x[1..];
  }

  /** The first step of ReplaceFirst: no occurrence starts at the front, nor anywhere before the first full one. */
  lemma NoEarlyOccurrence(x: string, y: string, pat: string)
    requires |pat| > 0 && x != [] && !Occurs(pat, x + pat[..|pat| - 1])
    ensures (x + pat + y)[..|pat|] != pat
    ensures !Occurs(pat, x[1..] + pat[..|pat| - 1])
    ensures (x + pat + y)[1..] == x[1..] + pat + y
  {
    var p' := pat[..|pat| - 1];
    assert (x + p')[..|pat|] == (x + pat + y)[..|pat|];
    assert (x + p')[1..] == x[1..] + p';
  }

  /** An occurrence at the front is replaced, and scanning resumes after it. */
  lemma ReplaceHere(pat: string, y: string, rep: string)
    requires |pat| > 0
    ensures ReplaceAll(pat + y, pat, rep) == rep + ReplaceAll(y, pat, rep)
  {
    assert (pat + y)[..|pat|] == pat;
    assert (pat + y)[|pat|..] == y;
  }

  /** The placeholders of arguments 10 to 19 are `$1` followed by one more digit. */
  lemma TeenPlaceholder(j: nat)
    requires j < 10
    ensures PlaceholderFor(PlaceHolderDollar, 9 + j) == "$1" + [Digit(j)]
  {
    assert Itoa(10 + j) == Itoa(1) + [Digit(j)];
  }

  /**
   * Replacement is textual: in `a$1db` the first argument's pass rewrites the
   * `$1` at the front of `$1d`, which is the placeholder of argument 10+d.
   * When nothing else holds a `$`, no later pass finds anything to replace.
   */
  lemma DoubleDigitShadowed(a: string, b: string, j: nat, args: seq<Arg>)
    requires j < 10 && |args| >= 1
    requires '$' !in a && '$' !in b && '$' !in Render(args[0])
    ensures PlaceholderFor(PlaceHolderDollar, 9 + j) == "$1" + [Digit(j)]
    ensures Prettified(a + "$1" + [Digit(j)] + b, PlaceHolderDollar, args)
         == Flatten(a + Render(args[0]) + [Digit(j)] + b)
  {
    TeenPlaceholder(j);
    var q, v, d := a + "$1" + [Digit(j)] + b, Render(args[0]), [Digit(j)] + b;
    FirstPlaceholders();
    assert '$' !in d;
    ReplaceSkip(d, [], "$1", v);
    assert d + [] == d;
    ReplaceOnce(a, d, "$1", v);
    assert q == a + "$1" + d;
    var t := a + v + d;
    assert Substituted(q, "$", args, 1) == t;
    assert '$' !in t;
    OccursChar('$', t);
    SubstitutedSettles(q, "$", args, 1, |args|);
    assert t == a + Render(args[0]) + [Digit(j)] + b;
  }

  /** Under the conditions of DoubleDigitShadowed no argument after the first, the shadowed one included, reaches the output. */
  lemma ShadowedArgumentIgnored(a: string, b: string, j: nat, args: seq<Arg>, k: nat, x: Arg)
    requires j < 10 && 1 <= k < |args|
    requires '$' !in a && '$' !in b && '$' !in Render(args[0])
    ensures Prettified(a + "$1" + [Digit(j)] + b, PlaceHolderDollar, args[k := x])
         == Prettified(a + "$1" + [Digit(j)] + b, PlaceHolderDollar, args)
  {
    DoubleDigitShadowed(a, b, j, args);
    DoubleDigitShadowed(a, b, j, args[k := x]);
  }

  /** A single occurrence, after a prefix that cannot start one, is the one that gets replaced. */
  lemma ReplaceOnce(a: string, b: string, pat: string, rep: string)
    requires |pat| > 0 && pat[0] !in a && ReplaceAll(b, pat, rep) == b
    ensures ReplaceAll(a + pat + b, pat, rep) == a + rep + b
  {
    assert a + pat + b == a + (pat + b);
    ReplaceSkip(a, pat + b, pat, rep);
    ReplaceHere(pat, b, rep);
  }

  /** The `$` placeholders of the first two arguments. */
  lemma FirstPlaceholders()
    ensures PlaceholderFor(PlaceHolderDollar, 0) == "$1" && PlaceholderFor(PlaceHolderDollar, 1) == "$2"
  {
    assert Itoa(1) == "1" && Itoa(2) == "2";
  }

  /**
   * A text shorter than the pattern is left as it is. Kept as a lemma for
   * literal arguments: asserted inline on literal text, it makes the
   * verifier unfold ReplaceAll on the literals at a much higher cost.
   */
  lemma ReplaceAbsentShort(s: string, pat: string, rep: string)
    requires 0 < |pat| && |s| < |pat|
    ensures ReplaceAll(s, pat, rep) == s
  {
  }

  /** `$2` is not an occurrence of `$1`. */
  lemma SecondIsNotFirst(rep: string)
    ensures ReplaceAll("$2", "$1", rep) == "$2"
  {
    assert "$2"[..2][1] != "$1"[1];
    assert "$2"[1..] == "2";
    ReplaceAbsentShort("2", "$1", rep);
  }

  /**
   * In `a$1b$2`, with no `$` in the surrounding text or in the first
   * rendering, each placeholder is replaced by the rendering of its own
   * argument.
   */
  lemma TwoPlaceholders(a: string, b: string, x: Arg, y: Arg)
    requires '$' !in a && '$' !in b && '$' !in Render(x)
    ensures Prettified(a + "$1" + b + "$2", PlaceHolderDollar, [x, y]) == Flatten(a + Render(x) + b + Render(y))
  {
    var q, args := a + "$1" + b + "$2", [x, y];
    FirstPlaceholders();
    SecondIsNotFirst(Render(x));
    ReplaceSkip(b, "$2", "$1", Render(x));
    ReplaceOnce(a, b + "$2", "$1", Render(x));
    assert q == a + "$1" + (b + "$2");
    var t := a + Render(x) + b;
    assert Substituted(q, "$", args, 1) == t + "$2" + "";
    assert "$2"[0] == '$' && '$' !in t;
    ReplaceAbsentShort("", "$2", Render(y));
    ReplaceOnce(t, "", "$2", Render(y));
    assert t + Render(y) + "" == a + Render(x) + b + Render(y);
  }

  /** Nothing in `s` that `%q` would escape. */
  predicate Plain(s: string)
  {
    forall k :: 0 <= k < |s| ==> PlainChar(s[k])
  }

  /** A character that `%q` keeps as it is. */
  predicate PlainChar(c: char)
  {
    ' ' <= c <= '~' && c != '"' && c != '\\'
  }

  /** Joining flat pieces gives flat text. */
  lemma FlatJoin(x: string, y: string)
    requires Flat(x) && Flat(y)
    ensures Flat(x + y)
  {
    forall k | 0 <= k < |x + y| ensures (x + y)[k] != '\t' && (x + y)[k] != '\n' {
      if k >= |x| {
        assert (x + y)[k] == y[k - |x|];
      }
    }
  }

  /** A string with nothing to escape is rendered as itself between double quotes. */
  lemma QuotePlain(name: string)
    requires Plain(name)
    ensures Render(Str(name)) == "\"" + name + "\""
  {
    EscapePlain(name);
  }

  /**
   * The quoting policy: an integer is printed in decimal with its sign, and
   * a string with nothing to escape is wrapped in double quotes.
   */
  lemma IntAndQuotedString(a: string, b: string, i: int, name: string)
    requires '$' !in a && '$' !in b && Plain(a) && Plain(b) && Plain(name)
    requires a != [] && !IsSpace(a[0])
    ensures Prettified(a + "$1" + b + "$2", PlaceHolderDollar, [Int(i), Str(name)])
         == a + IntText(i) + b + ("\"" + name + "\"")
  {
    IntAndQuotedSubstituted(a, b, i, name);
    IntAndQuotedFlat(a, b, i, name);
  }

  /** The normalisation half of IntAndQuotedString: the substituted text is already flat and trimmed. */
  lemma IntAndQuotedFlat(a: string, b: string, i: int, name: string)
    requires Plain(a) && Plain(b) && Plain(name)
    requires a != [] && !IsSpace(a[0])
    ensures var t := a + IntText(i) + b + ("\"" + name + "\""); Flatten(t) == t
  {
    var q := "\"" + name + "\"";
    FlatJoin("\"", name);
    FlatJoin("\"" + name, "\"");
    IntTextFlat(i);
    FlatJoin(a, IntText(i));
    FlatJoin(a + IntText(i), b);
    FlatJoin(a + IntText(i) + b, q);
    var t := a + IntText(i) + b + q;
    assert t[0] == a[0] && t[|t| - 1] == '"';
    FlatFixed(t);
  }

  /** The substitution half of IntAndQuotedString, before whitespace normalisation. */
  lemma IntAndQuotedSubstituted(a: string, b: string, i: int, name: string)
    requires '$' !in a && '$' !in b && Plain(name)
    ensures Prettified(a + "$1" + b + "$2", PlaceHolderDollar, [Int(i), Str(name)])
         == Flatten(a + IntText(i) + b + ("\"" + name + "\""))
  {
    var r1 := IntText(i);
    assert Render(Int(i)) == r1;
    IntTextFlat(i);
    QuotePlain(name);
    TwoPlaceholders(a, b, Int(i), Str(name));
  }

  /** The `%v` text of an integer holds no tab, no newline and no `$`. */
  lemma IntTextFlat(i: int)
    ensures Flat(IntText(i)) && '$' !in IntText(i)
  {
    var r := IntText(i);
    assert forall k :: 0 <= k < |r| ==> r[k] == '-' || '0' <= r[k] <= '9';
  }

  /** Flat text without surrounding whitespace is a fixed point of the normalisation. */
  lemma FlatFixed(t: string)
    requires Flat(t) && (t == [] || (!IsSpace(t[0]) && !IsSpace(t[|t| - 1])))
    ensures Flatten(t) == t
  {
    assert '\t' !in t && '\n' !in t;
    FlatUntouched(t);
    TrimmedUntouched(t);
  }

  /**
   * The quoting policy on the customary example `id=$1 AND name=$2` with
   * `(42, "O'Brien")`. The literal pieces are passed as parameters fixed by
   * the precondition, so that the verifier does not unfold the functions on
   * literal text.
   */
  lemma QuotingExample(a: string, b: string, name: string)
    requires a == "SELECT * FROM t WHERE id=" && b == " AND name=" && name == "O'Brien"
    ensures Prettified(a + "$1" + b + "$2", PlaceHolderDollar, [Int(42), Str(name)])
         == a + "42" + b + ("\"" + name + "\"")
  {
    ExampleTexts(a, b, name);
    assert IntText(42) == "42";
    IntAndQuotedString(a, b, 42, name);
  }

  /**
   * The pieces of the example contain no `$` and nothing to escape. Kept
   * apart from QuotingExample so that the character-by-character checks on
   * the literals are not made beside the Prettified term.
   */
  lemma ExampleTexts(a: string, b: string, name: string)
    requires a == "SELECT * FROM t WHERE id=" && b == " AND name=" && name == "O'Brien"
    ensures '$' !in a && '$' !in b && Plain(a) && Plain(b) && Plain(name)
    ensures a != [] && !IsSpace(a[0])
  {
  }

  /** Different arguments have different placeholders, and a `$` placeholder is never a `?` placeholder. */
  lemma PlaceholdersDistinct(placeholder: string, i: nat, j: nat)
    ensures PlaceholderFor(placeholder, i) == PlaceholderFor(placeholder, j) ==> i == j
    ensures PlaceholderFor(PlaceHolderDollar, i) != PlaceholderFor(PlaceHolderQuestion, j)
  {
    var p, q := PlaceholderFor(placeholder, i), PlaceholderFor(placeholder, j);
    if p == q {
      assert p[|placeholder|..] == Itoa(i + 1);
      assert q[|placeholder|..] == Itoa(j + 1);
      ItoaInjective(i + 1, j + 1);
    }
    assert PlaceholderFor(PlaceHolderDollar, i)[0] != PlaceholderFor(PlaceHolderQuestion, j)[0];
  }
}

=== FILE: transaction.dfy ===
/**
 * pkg/db/transaction/transaction.go: the transaction manager. A body runs
 * either inside the transaction its context already carries, or inside a
 * transaction begun for it that is then committed or rolled back exactly
 * once, with the errors of every step wrapped by fixed rules.
 */
module Transaction {
  import opened Wrappers
  import opened Db
  import opened Pg

  /** Message tags of the wraps the manager adds. */
  const MsgBegin := "can't begin transaction"
  const MsgBody := "failed to execute code inside transaction"
  const MsgCommit := "tx commit failed"
  const MsgRollback := "errRollback"
  const MsgPanic := "panic recovered"

  /**
   * The manager's collaborators: `BeginTx` of its `db.Transactor`, and the
   * `Commit` and `Rollback` answers of the handles that `BeginTx` hands out.
   */
  datatype Manager = Manager(
    beginTx: TxOptions -> Result<Handle, Error>,
    commit: Handle -> Option<Error>,
    rollback: Handle -> Option<Error>)

  /** `db.Handler`: the caller's body, which sees only the context it is given. */
  type Handler = Context -> Outcome

  /** What the manager does, in the order done: begin, run the body, commit or roll back. */
  datatype Action = Begin(opts: TxOptions) | Body(ctx: Context) | Commit(h: Handle) | Rollback(h: Handle)

  /** The returned error (or propagated panic) together with the actions taken. */
  datatype Run = Run(result: Outcome, trace: seq<Action>)

  /** `ctx.Value(pg.TxKey).(db.Committer)`: any handle counts, whatever its dynamic type. */
  predicate InTransaction(ctx: Context): (r: bool)
    ensures r <==> TxKey in ctx.values && ctx.values[TxKey].Committer?
    ensures Route(ctx).Tx? ==> r
  {
    ctx.Value(TxKey).Some? && ctx.Value(TxKey).value.Committer?
  }

  /** The error the deferred closure settles on once the body has failed: rolled back, and wrapped again if that fails too. */
  function RolledBack(m: Manager, h: Handle, err: Error): Run
  {
    match m.rollback(h)
    case None => Run(Err(err), [Rollback(h)])
    case Some(rb) => Run(Err(WrapWith(MsgRollback, rb, err)), [Rollback(h)])
  }

  /**
   * What `transaction` returns and does, case by case: a body already in a
   * transaction runs as it is (a panic passes through); otherwise a failed
   * begin ends everything, and a begun transaction is committed after a
   * successful body and rolled back after an error or a panic.
   */
  function Transacted(ctx: Context, opts: TxOptions, m: Manager, fn: Handler): Run
  {
    if InTransaction(ctx) then Run(fn(ctx), [Body(ctx)])
    else match m.beginTx(opts)
      case Failure(e) => Run(Err(Wrap(MsgBegin, e)), [Begin(opts)])
      case Success(h) =>
        var c := MakeContextTx(ctx, h);
        var settled :=
          match fn(c)
          case Ok => (
            match m.commit(h)
            case None => Run(Ok, [Commit(h)])
            case Some(ce) => Run(Err(Wrap(MsgCommit, ce)), [Commit(h)]))
          case Err(e) => RolledBack(m, h, Wrap(MsgBody, e))
          case Panic(v) => RolledBack(m, h, Recovered(MsgPanic, v));
        Run(settled.result, [Begin(opts), Body(c)] + settled.trace)
  }

  /**
   * `manager.transaction`, step by step: `err` is assigned by the body's
   * return statement and then reassigned by the deferred closure, which
   * recovers a panic, rolls back on error and commits otherwise.
   */
  method Transaction(ctx: Context, opts: TxOptions, m: Manager, fn: Handler) returns (err: Outcome, trace: seq<Action>)
    ensures Run(err, trace) == Transacted(ctx, opts, m, fn)
  {
    var bound := ctx.Value(TxKey);
    if bound.Some? && bound.value.Committer? {
      err := fn(ctx);
      trace := [Body(ctx)];
      return;
    }
    trace := [Begin(opts)];
    var begun := m.beginTx(opts);
    if begun.Failure? {
      err := Err(Wrap(MsgBegin, begun.error));
      return;
    }
    var tx := begun.value;
    var c := MakeContextTx(ctx, tx);

    // the body and the `return err` that wraps its error
    var outcome := fn(c);
    trace := trace + [Body(c)];
    var e: Option<Error> := None;
    if outcome.Err? {
      e := Some(Wrap(MsgBody, outcome.error));
    }

    // the deferred closure
    if outcome.Panic? {
      e := Some(Recovered(MsgPanic, outcome.value));
    }
    if e.Some? {
      trace := trace + [Rollback(tx)];
      var errRollback := m.rollback(tx);
      if errRollback.Some? {
        e := Some(WrapWith(MsgRollback, errRollback.value, e.value));
      }
    } else {
      trace := trace + [Commit(tx)];
      var errCommit := m.commit(tx);
      if errCommit.Some? {
        e := Some(Wrap(MsgCommit, errCommit.value));
      }
    }
    err := if e.Some? then Err(e.value) else Ok;
  }

  /** `ReadComitted` (the source's spelling): a transaction at isolation level read committed. */
  method ReadComitted(ctx: Context, m: Manager, f: Handler) returns (err: Outcome, trace: seq<Action>)
    ensures Run(err, trace) == Transacted(ctx, TxOptions(ReadCommitted), m, f)
    ensures !InTransaction(ctx) ==> trace[0] == Begin(TxOptions(ReadCommitted))
  {
    var txOpts := TxOptions(ReadCommitted);
    err, trace := Transaction(ctx, txOpts, m, f);
  }

  // ---------------------------------------------------------------------------
  // Counting actions
  // ---------------------------------------------------------------------------

  /** How many begins a trace holds. */
  function Begins(t: seq<Action>): (n: nat)
    ensures n <= |t|
  {
    if t == [] then 0 else (if t[0].Begin? then 1 else 0) + Begins(t[1..])
  }

  /** How many commits a trace holds. */
  function Commits(t: seq<Action>): (n: nat)
    ensures n <= |t|
  {
    if t == [] then 0 else (if t[0].Commit? then 1 else 0) + Commits(t[1..])
  }

  /** How many rollbacks a trace holds. */
  function Rollbacks(t: seq<Action>): (n: nat)
    ensures n <= |t|
  {
    if t == [] then 0 else (if t[0].Rollback? then 1 else 0) + Rollbacks(t[1..])
  }

  /** The counts of a short trace, spelled out once so the lemmas need not unfold them. */
  lemma {:induction false} CountThree(a: Action, b: Action, x: Action)
    requires a.Begin? && b.Body? && (x.Commit? || x.Rollback?)
    ensures Begins([a, b, x]) == 1
    ensures Commits([a, b, x]) == (if x.Commit? then 1 else 0)
    ensures Rollbacks([a, b, x]) == (if x.Rollback? then 1 else 0)
  {
    assert [a, b, x][1..] == [b, x];
    assert [b, x][1..] == [x];
    assert [x][1..] == [];
    assert Begins([x]) == 0 && Begins([b, x]) == 0;
    assert Commits([x]) == Commits([b, x]) == Commits([a, b, x]);
    assert Rollbacks([x]) == Rollbacks([b, x]) == Rollbacks([a, b, x]);
  }

  // ---------------------------------------------------------------------------
  // Properties
  // ---------------------------------------------------------------------------

  /** A context that already carries a handle: the body runs with that very context, its outcome is returned unwrapped, and nothing is begun, committed or rolled back. */
  lemma NestedRunsAsIs(ctx: Context, opts: TxOptions, m: Manager, fn: Handler)
    requires ctx.Value(TxKey).Some? && ctx.Value(TxKey).value.Committer?
    ensures Transacted(ctx, opts, m, fn) == Run(fn(ctx), [Body(ctx)])
    ensures Begins(Transacted(ctx, opts, m, fn).trace) == 0
    ensures Commits(Transacted(ctx, opts, m, fn).trace) == 0
    ensures Rollbacks(Transacted(ctx, opts, m, fn).trace) == 0
  {
    assert [Body(ctx)][1..] == [];
  }

  /** A failed begin: the body never runs, nothing is committed or rolled back, and the begin error comes back wrapped. */
  lemma BeginFailure(ctx: Context, opts: TxOptions, m: Manager, fn: Handler)
    requires !InTransaction(ctx) && m.beginTx(opts).Failure?
    ensures Transacted(ctx, opts, m, fn) == Run(Err(Wrap(MsgBegin, m.beginTx(opts).error)), [Begin(opts)])
    ensures Root(Transacted(ctx, opts, m, fn).result.error) == Root(m.beginTx(opts).error)
  {
  }

  /** After a successful begin the body runs exactly once, with a derived context bound to the new handle. */
  lemma BodySeesHandle(ctx: Context, opts: TxOptions, m: Manager, fn: Handler)
    requires !InTransaction(ctx) && m.beginTx(opts).Success?
    ensures var h := m.beginTx(opts).value;
      var t := Transacted(ctx, opts, m, fn).trace;
      |t| == 3 && t[0] == Begin(opts) && t[1].Body? &&
      t[1].ctx.Value(TxKey) == Some(Committer(h)) &&
      (forall k :: k != TxKey ==> t[1].ctx.Value(k) == ctx.Value(k)) &&
      Route(t[1].ctx) == (if h.isPgxTx then Tx(h) else Pool)
  {
  }

  /** A body error: one rollback, no commit, the body error wrapped, and the rollback error kept beside it when rollback fails. */
  lemma BodyError(ctx: Context, opts: TxOptions, m: Manager, fn: Handler, e: Error)
    requires !InTransaction(ctx) && m.beginTx(opts).Success?
    requires fn(MakeContextTx(ctx, m.beginTx(opts).value)) == Err(e)
    ensures var h := m.beginTx(opts).value;
      var r := Transacted(ctx, opts, m, fn);
      r.trace == [Begin(opts), Body(MakeContextTx(ctx, h)), Rollback(h)] &&
      r.result == Err(match m.rollback(h)
                      case None => Wrap(MsgBody, e)
                      case Some(rb) => WrapWith(MsgRollback, rb, Wrap(MsgBody, e)))
    ensures Root(Transacted(ctx, opts, m, fn).result.error) == Root(e)
    ensures Wrap(MsgBody, e) in Chain(Transacted(ctx, opts, m, fn).result.error)
  {
  }

  /** A panicking body: the panic becomes an error, there is one rollback and no commit, and the panic does not escape. */
  lemma PanicRecovered(ctx: Context, opts: TxOptions, m: Manager, fn: Handler, v: string)
    requires !InTransaction(ctx) && m.beginTx(opts).Success?
    requires fn(MakeContextTx(ctx, m.beginTx(opts).value)) == Panic(v)
    ensures var h := m.beginTx(opts).value;
      var r := Transacted(ctx, opts, m, fn);
      r.trace == [Begin(opts), Body(MakeContextTx(ctx, h)), Rollback(h)] &&
      r.result == Err(match m.rollback(h)
                      case None => Recovered(MsgPanic, v)
                      case Some(rb) => WrapWith(MsgRollback, rb, Recovered(MsgPanic, v)))
    ensures Root(Transacted(ctx, opts, m, fn).result.error) == Recovered(MsgPanic, v)
  {
  }

  /** A successful body: one commit, no rollback, and either nil or the commit error wrapped. */
  lemma SuccessCommits(ctx: Context, opts: TxOptions, m: Manager, fn: Handler)
    requires !InTransaction(ctx) && m.beginTx(opts).Success?
    requires fn(MakeContextTx(ctx, m.beginTx(opts).value)) == Ok
    ensures var h := m.beginTx(opts).value;
      var r := Transacted(ctx, opts, m, fn);
      r.trace == [Begin(opts), Body(MakeContextTx(ctx, h)), Commit(h)] &&
      r.result == (match m.commit(h)
                   case None => Ok
                   case Some(ce) => Err(Wrap(MsgCommit, ce)))
  {
  }

  /**
   * Over every input: at most one begin, exactly one terminal action once a
   * transaction has begun (and none otherwise), a commit exactly when the
   * body succeeded, and a panic escapes only from a nested run.
   */
  lemma {:induction false} OneTerminalAction(ctx: Context, opts: TxOptions, m: Manager, fn: Handler)
    ensures var t := Transacted(ctx, opts, m, fn).trace;
      Begins(t) == (if InTransaction(ctx) then 0 else 1) &&
      Commits(t) + Rollbacks(t) == (if !InTransaction(ctx) && m.beginTx(opts).Success? then 1 else 0)
    ensures Commits(Transacted(ctx, opts, m, fn).trace) == 1 <==>
      !InTransaction(ctx) && m.beginTx(opts).Success? && fn(MakeContextTx(ctx, m.beginTx(opts).value)) == Ok
    ensures Transacted(ctx, opts, m, fn).result.Panic? ==> InTransaction(ctx)
  {
    if InTransaction(ctx) {
      NestedRunsAsIs(ctx, opts, m, fn);
    } else if m.beginTx(opts).Failure? {
      assert [Begin(opts)][1..] == [];
    } else {
      var h := m.beginTx(opts).value;
      var c := MakeContextTx(ctx, h);
      var t := Transacted(ctx, opts, m, fn).trace;
      match fn(c)
      case Ok =>
        SuccessCommits(ctx, opts, m, fn);
        CountThree(Begin(opts), Body(c), Commit(h));
      case Err(e) =>
        BodyError(ctx, opts, m, fn, e);
        CountThree(Begin(opts), Body(c), Rollback(h));
      case Panic(v) =>
        PanicRecovered(ctx, opts, m, fn, v);
        CountThree(Begin(opts), Body(c), Rollback(h));
    }
  }

  /**
   * No nested begin: a transaction run inside the body of another joins it,
   * so the pair behaves as the outer transaction over the inner body, and
   * the outer isolation level is the one that applies.
   */
  lemma Nesting(ctx: Context, outer: TxOptions, inner: TxOptions, m: Manager, innerM: Manager, fn: Handler)
    ensures Transacted(ctx, outer, m, c => Transacted(c, inner, innerM, fn).result) == Transacted(ctx, outer, m, fn)
    ensures InTransaction(ctx) ==> Transacted(ctx, inner, innerM, fn).trace == [Body(ctx)]
    ensures !InTransaction(ctx) && m.beginTx(outer).Success? ==>
      var c := MakeContextTx(ctx, m.beginTx(outer).value);
      Transacted(c, inner, innerM, fn).trace == [Body(c)]
  {
    var g: Handler := c => Transacted(c, inner, innerM, fn).result;
    if !InTransaction(ctx) && m.beginTx(outer).Success? {
      var c := MakeContextTx(ctx, m.beginTx(outer).value);
      assert InTransaction(c);
      assert g(c) == fn(c);
    }
  }

  /**
   * The two tests of "is there a transaction" disagree: a bound handle that
   * is not a full `pgx.Tx` counts as a transaction for the manager, yet the
   * statements of a body running in it go to the pool.
   */
  lemma CommitterNotRouted(ctx: Context, h: Handle, opts: TxOptions, m: Manager, fn: Handler, q: Query, args: seq<Prettier.Arg>)
    requires !h.isPgxTx
    ensures var c := MakeContextTx(ctx, h);
      InTransaction(c) && Route(c) == Pool && StatementFor(c, q, args).target == Pool &&
      Transacted(c, opts, m, fn) == Run(fn(c), [Body(c)])
  {
    RoutingRule(ctx, h);
  }

  /** The converse holds: whatever the router sends to a transaction, the manager sees as one. */
  lemma RoutedIsInTransaction(ctx: Context)
    ensures Route(ctx).Tx? ==> InTransaction(ctx)
    ensures InTransaction(ctx) && !Route(ctx).Tx? ==> !ctx.Value(TxKey).value.h.isPgxTx
  {
  }

  /** Inside a begun transaction over a full `pgx.Tx`, every statement the body issues goes to that transaction. */
  lemma BodyStatementsRouted(ctx: Context, opts: TxOptions, m: Manager, fn: Handler, q: Query, args: seq<Prettier.Arg>)
    requires !InTransaction(ctx) && m.beginTx(opts).Success? && m.beginTx(opts).value.isPgxTx
    ensures var t := Transacted(ctx, opts, m, fn).trace;
      t[1].Body? && StatementFor(t[1].ctx, q, args) == Statement(Tx(m.beginTx(opts).value), q.queryRaw, args)
  {
    BodySeesHandle(ctx, opts, m, fn);
  }
}

=== FILE: wrappers.dfy ===
/** Option and Result, the two failure-carrying shapes used across the model. */
module Wrappers {

  /** A value that may be absent: Go's `nil` interface or a missing map entry. */
  datatype Option<+T> = None | Some(value: T)

  /** A value or an error: Go's `(T, error)` pair where exactly one side is meaningful. */
  datatype Result<+T, +E> = Success(value: T) | Failure(error: E)
}
